=== FILE: README.md ===
# auto_email core, modelled in Dafny

The system is a small mail backend. A Graph client (`GraphUser`) obtains a
bearer token through the client-credentials grant and caches it in Redis
under `graph_api_token` for the expiry the token endpoint names (3600 seconds
when it names none). It resolves a user principal name to a user id, cached
for a day under `user_id:<name>`. It then lists the inbox or sends mail with
`Authorization: Bearer <token>` headers. The `/messages` handler lists the
inbox, keeps the messages whose subject contains the decimal text of a load
number, and answers with one fixed-shape summary per kept message. When there
are none it answers with a fixed notice, and any failure becomes HTTP 500.

The model is functional:

- `RedisCache`: the store is a map from key to (text, ttl). GET answers nil
  for absent keys. Python truthiness turns nil and the empty string into misses.
- `GraphApi`: each `GraphUser` method is a function taking the store and a
  `Remote` record, which holds the reply of each endpoint (status code,
  decoded body, body text). It yields an `Outcome`: the returned value or the
  raised failure, the store afterwards, and the requests issued, in order.
  A request is modelled by its endpoint and parameters, not by its URL text.
- `MessagesEndpoint`: the handler is a method whose loop mirrors the source
  loop. `Selected` is a recursive reference definition of the kept summaries.
- `Filtering` gives the generic filter-and-map with its position lemma.
- `Decimal` models `str(int)` and its inverse parser. `Substring` models
  Python's `in` on two strings.

## Model

| member | source | states |
|---|---|---|
| `MessagesEndpoint.ListOutlookMessages` | main.py:37-59 | Returns the inbox call's store and request log unchanged. An inbox failure becomes HTTP 500 with the exception text as detail. Otherwise the loop builds exactly the reference summaries, or the fixed notice when there are none. Listed summaries are non-empty, each subject contains the load number's text, and there is never a list without a load number |
| `MessagesEndpoint.CollectSummaries` | main.py:44-54 | The loop over the page, which appends a summary whenever the substring scan finds the load number in the subject, produces exactly the reference summaries `Selected` |
| `Filtering.FilterMapPositions` | main.py:44-54 | For any filter-and-append loop: the output is the image of an in-order subsequence. The positions strictly increase and are exactly those of the kept elements |
| `MessagesEndpoint.Matches` | main.py:46 | A message is kept only when a load number was given and the subject is at least as long as its decimal text. A subject that is exactly that text is kept |
| `MessagesEndpoint.PageResponse` | main.py:55-57 | The reply is either a list or exactly the "No messages found…" notice. A list holds exactly the non-empty summaries of the page's `value`, and only with a load number, each subject containing that number's text |
| `MessagesEndpoint.SelectedPositions` | main.py:43-54 | The summaries come from an in-order subsequence of the page: one position per summary, strictly increasing, and each summary is that message's summary. A position is used exactly when its message matches, which gives soundness, completeness and one summary per match |
| `MessagesEndpoint.SelectedSound` | main.py:46-49 | Every summary's subject contains `str(load_number)` as a contiguous substring, and a load number was given |
| `MessagesEndpoint.SelectedWithoutLoad` | main.py:46 | With no load number, no message is kept |
| `MessagesEndpoint.PageResponseCases` | main.py:43-57 | The reply is a list or exactly the "No messages found…" notice. It is a list exactly when the page has a `value` list with some matching message, so a missing load number, a missing `value` or an empty page gives the notice |
| `MessagesEndpoint.Summarize` | main.py:47-53 | Message ID, Subject and Received are copied from the record. From is the sender name. Status is "Read" exactly when `isRead` holds and "Unread" exactly when it does not |
| `MessagesEndpoint.SenderName` | main.py:50 | `from.emailAddress.name` when both `from` and `emailAddress` are present, "NONE" otherwise |
| `Substring.Find` | main.py:46 | The left-to-right scan answers true exactly when the needle occurs contiguously somewhere in the subject |
| `Substring.ContainsSpliced` | main.py:46 | A subject containing the load number's text, with anything around it, is matched |
| `Decimal.DecimalText` | main.py:46 | `str(n)` is non-empty and all digits, except a leading minus exactly for negative `n`. There is no leading zero: after a minus the first digit is not 0, and an unsigned text of two or more characters does not start with 0. With `ParseDecimalText` this fixes the text uniquely |
| `Decimal.ParseDecimalText` | main.py:46 | Parsing `str(n)` gives back `n` |
| `Decimal.DecimalTextInjective` | main.py:46 | Different load numbers give different search texts |
| `Decimal.DecimalTextHasNoSpace` | graph_api.py:55-56 | The status code's text in an exception message contains no space |
| `RedisCache.Get` | graph_api.py:31 | GET answers a value exactly for stored keys, and that value is the stored text |
| `RedisCache.SetEx` | graph_api.py:52 | After the write, the key holds the value with the given TTL. The key set grows by that key only and every other entry is unchanged |
| `GraphApi.GetUserToken` | graph_api.py:28-56 | On a hit (present and non-empty) it returns the cached token, the store is unchanged and nothing is requested. On a miss it makes exactly one token request. A miss with 200 returns `access_token` and caches it under `graph_api_token` with `expires_in`, or 3600 when absent. Any other status raises with that status and text, store untouched. A returned token is the cached one, and only `graph_api_token` is ever written |
| `GraphApi.GetHeaders` | graph_api.py:58-64 | Same store, requests and failure as the token fetch. On success Authorization is "Bearer " followed by the token, the content type is `application/json`, and the token is the one now cached |
| `GraphApi.GetUserId` | graph_api.py:66-84 | On a hit under `user_id:<name>` it returns the cached id with no request and the store unchanged. On a miss it fetches headers, then issues one authorised directory request. A header failure is raised as is. With status 200 it caches `id` with TTL 86400 on top of the header fetch's store and returns it. Any other status raises with the directory reply's own status and text and leaves the header fetch's store, so a freshly fetched token stays cached. On failure the user key is as before. Only the token key and this user key are written |
| `GraphApi.GetCredentials` | graph_api.py:88-90 | Goes through `get_user_id` first: its requests come first, and its failure is raised as is with its store and requests. On success it then fetches the headers, and the result pairs that user id with those headers after both calls' requests. Success yields the id cached under the user key and headers carrying the cached token. A failure carries a token or directory reply's non-success status and text. With both keys cached it makes no request and leaves the store unchanged. Cached user ids keep their one-day TTL |
| `GraphApi.GetInbox` | graph_api.py:86-97 | Makes the inbox request (top 25, the resolved id and headers) after the credential requests. It returns the body exactly when that request's status is 200. Otherwise it raises with the inbox reply's own status and text. The store is exactly the one the credential lookup left, since the listing writes nothing. A successful listing used the cached id and token |
| `GraphApi.SendMail` | graph_api.py:99-127 | Makes the send request carrying the resolved id, headers, subject, body and recipient. It answers "Email sent successfully" exactly when the status is 202. On any other status it raises with the send reply's own status and text. The store is exactly the one the credential lookup left |
| `GraphApi.Describe` | graph_api.py:55-56 | The exception text starts with the step's "Failed to …: " prefix, has room for the status text and " - ", and ends with the body text unchanged. `ParseDescribe` shows the whole failure can be read back |
| `GraphApi.ParseDescribe` | graph_api.py:54-56 | The exception text "Failed to …: <status> - <text>" gives back the failing step, the status and the body text |
| `GraphApi.DescribeInjective` | graph_api.py:54-56 | Different failures give different exception texts, so the HTTP 500 detail identifies the upstream reply |
| `GraphApi.UserKeyIsNotTokenKey` | graph_api.py:67 | A user-id key never collides with the token key |
| `GraphApi.UserKeyInjective` | graph_api.py:67 | Different principal names use different cache keys |
| `GraphApi.EmptyCachedValueIsMiss` | graph_api.py:32 | A cached empty string is a miss: the token lookup requests a new token and the user-id lookup issues requests |
| `GraphApi.KeptADayAfterWrites` | graph_api.py:80 | Writes that give every user-id key they touch a TTL of 86400 keep all cached user ids at that TTL |
| `GraphApi.TokenReused` | graph_api.py:31-53 | Once a non-empty token has been returned, the next call returns it again with no request and the same store, whatever the endpoint would answer |
| `GraphApi.UserIdReused` | graph_api.py:67-81 | Once a non-empty id has been returned, the next lookup of the same name returns it with no request and the same store |
| `GraphApi.WarmInbox` | graph_api.py:86-94 | With the token and id cached, listing the inbox makes exactly one request, with the cached id and token. The store is unchanged and the outcome is decided by the inbox status alone |
| `GraphApi.InboxAfterInbox` | graph_api.py:86-94 | After any listing that left a non-empty token and id cached, whether or not the listing itself succeeded, the next listing makes a single request |

## Left out

- The lock around the token refresh only serialises concurrent callers, so every operation is one atomic step.
- HTTP traffic and the OAuth2 client-credentials exchange itself are left out. Each endpoint's reply is an input, and one operation sees the same reply every time it calls the same endpoint.
- Redis is a map that records the TTL it was given. Expiry over time is not modelled, and neither are the store's errors (a TTL the server refuses, a value of `None`).
- Message records follow the shape the inbox listing selects: string `id`, `subject` and `receivedDateTime`, boolean `isRead`, and `from` / `emailAddress` that are null or objects with those keys. Missing keys or non-string subjects (a `KeyError` or `TypeError` that the handler would turn into a 500) are not modelled, so the model's 500 comes only from the inbox call.
- A `from` or `emailAddress` object is taken as non-empty, so Python's truthiness test on it is the same as a presence test.
- A 200 token reply always carries `access_token` and a 200 directory reply always carries `id` in the model. When they are missing, the code hands `None` to the store, which is library behaviour outside this model.
- The inbox page is a JSON object. The test "page is truthy and holds `value`" reduces to "`value` is present", because an object holding a key is never empty.
- The URLs (tenant token URL, `/users/{id}`, `mailFolders/inbox/messages` with `$select`, `/sendMail`) are represented by request constructors, not by their text. The send-mail JSON payload is reduced to subject, body and recipient.
- The stub endpoints `/`, `/assign/` and `/redirected`, the FastAPI routing, CORS and configuration loading, logging and the unused `start_time` timers are left out, as is the alternate SDK client in graph.py.

## Notes on the code

- No handler calls `send_mail`. Its failure is a raised `Failure`, and only `/messages` maps failures to HTTP 500: `MessagesEndpoint.ListOutlookMessages` is the only member that produces `HttpError`.
- The token is fetched again when GET answers nil or an empty string. Expiry is left to the store, so in the model an entry is simply present or absent.

=== FILE: decimal.dfy ===
/** Decimal text of integers, as Python's `str(int)` and f-string
    interpolation write it, and the parser that inverts it. */
module Decimal {
  import opened Options

  predicate IsDigit(c: char) {
    '0' <= c <= '9'
  }

  predicate AllDigits(s: string) {
    forall i | 0 <= i < |s| :: IsDigit(s[i])
  }

  /** The character of a decimal digit. */
  function Digit(d: nat): (c: char)
    requires d < 10
    ensures IsDigit(c)
    ensures c == '0' <==> d == 0
  {
    ('0' as int + d) as char
  }

  /** The digit a character stands for; inverse of Digit. */
  function DigitValue(c: char): (d: nat)
    requires IsDigit(c)
    ensures d < 10 && Digit(d) == c
  {
    c as int - '0' as int
  }

  /** The digits of `n`, most significant first, with no leading zero. */
  function NatText(n: nat): (s: string)
    ensures |s| >= 1 && AllDigits(s)
    ensures s[0] == '0' ==> n == 0
    decreases n
  {
    if n < 10 then [Digit(n)] else NatText(n / 10) + [Digit(n % 10)]
  }

  /** The text `str(n)` gives for an int: a minus sign for negatives, then the
      digits of the magnitude. */
  function DecimalText(n: int): (s: string)
    ensures |s| >= 1
    ensures forall i | 0 <= i < |s| :: IsDigit(s[i]) || (i == 0 && s[i] == '-')
    ensures s[0] == '-' <==> n < 0
    ensures s[0] == '-' ==> |s| >= 2 && s[1] != '0'
    ensures s[0] != '-' && |s| >= 2 ==> s[0] != '0'
  {
    if n < 0 then "-" + NatText(-n) else NatText(n)
  }

  /** The value of a run of decimal digits, read left to right. */
  function DigitsValue(s: string): nat
    requires AllDigits(s)
  {
    if s == [] then 0 else 10 * DigitsValue(s[..|s| - 1]) + DigitValue(s[|s| - 1])
  }

  /** Reads an optionally negative run of decimal digits; None for anything else. */
  function ParseDecimal(s: string): Option<int> {
    if |s| >= 2 && s[0] == '-' && AllDigits(s[1..]) then Some(0 - DigitsValue(s[1..]) as int)
    else if |s| >= 1 && AllDigits(s) then Some(DigitsValue(s))
    else None
  }

  lemma {:induction false} NatTextValue(n: nat)
    ensures DigitsValue(NatText(n)) == n
    decreases n
  {
    if n >= 10 {
      NatTextValue(n / 10);
      var s := NatText(n);
      assert s[..|s| - 1] == NatText(n / 10);
    }
  }

  /** The digits of a natural number parse back to it. */
  lemma ParseNatText(n: nat)
    ensures ParseDecimal(NatText(n)) == Some(n)
  {
    NatTextValue(n);
  }

  /** A minus sign before the digits of a positive number parses to its negation. */
  lemma ParseNegatedNatText(n: nat)
    requires n > 0
    ensures ParseDecimal("-" + NatText(n)) == Some(-(n as int))
  {
    var s := "-" + NatText(n);
    assert s[1..] == NatText(n);
    NatTextValue(n);
  }

  /** Decimal text round-trips through the parser. */
  lemma ParseDecimalText(n: int)
    ensures ParseDecimal(DecimalText(n)) == Some(n)
  {
    if n < 0 {
      ParseNegatedNatText(-n);
    } else {
      ParseNatText(n);
    }
  }

  /** Distinct integers have distinct decimal texts. */
  lemma DecimalTextInjective(a: int, b: int)
    ensures DecimalText(a) == DecimalText(b) ==> a == b
  {
    ParseDecimalText(a);
    ParseDecimalText(b);
  }

  /** Decimal text never holds a space, so it ends at the first space after it. */
  lemma DecimalTextHasNoSpace(n: int)
    ensures forall i | 0 <= i < |DecimalText(n)| :: DecimalText(n)[i] != ' '
  {
  }
}

=== FILE: filtering.dfy ===
/** Order-preserving filter-and-map over a sequence, the shape of a Python
    loop that appends `f(x)` for each `x` passing a test. */
module Filtering {

  /** The images under `f` of the elements of `s` that satisfy `keep`, in order. */
  function FilterMap<T, U>(s: seq<T>, keep: T -> bool, f: T -> U): seq<U> {
    if s == [] then []
    else FilterMap(s[..|s| - 1], keep, f) + (if keep(s[|s| - 1]) then [f(s[|s| - 1])] else [])
  }

  /** The result is the image of an in-order subsequence of `s` whose positions
      are exactly those of the kept elements. */
  lemma {:induction false} FilterMapPositions<T, U>(s: seq<T>, keep: T -> bool, f: T -> U) returns (idx: seq<int>)
    ensures |idx| == |FilterMap(s, keep, f)|
    ensures forall j | 0 <= j < |idx| :: 0 <= idx[j] < |s| && FilterMap(s, keep, f)[j] == f(s[idx[j]])
    ensures forall j, k | 0 <= j < k < |idx| :: idx[j] < idx[k]
    ensures forall i | 0 <= i < |s| :: keep(s[i]) <==> i in idx
  {
    if s == [] {
      idx := [];
    } else {
      var n := |s| - 1;
      var front := s[..n];
      var rest := FilterMapPositions(front, keep, f);
      var kept := keep(s[n]);
      assert FilterMap(s, keep, f) == FilterMap(front, keep, f) + (if kept then [f(s[n])] else []);
      idx := if kept then rest + [n] else rest;
      forall j | 0 <= j < |idx|
        ensures 0 <= idx[j] < |s| && FilterMap(s, keep, f)[j] == f(s[idx[j]])
      {
        if j < |rest| {
          assert idx[j] == rest[j] && front[rest[j]] == s[rest[j]];
        }
      }
      forall i | 0 <= i < |s|
        ensures keep(s[i]) <==> i in idx
      {
        if i < n {
          assert front[i] == s[i];
          assert i in idx <==> i in rest;
        }
      }
    }
  }
}

=== FILE: graph_api.dfy ===
/** The Graph client (`GraphUser`): a bearer token and user ids cached in the
    key-value store, and the inbox and send-mail calls built on them.

    Each operation is a function from the store and the replies of the remote
    endpoints to an `Outcome`: what it returns or raises, the store afterwards,
    and the remote requests it issued, in order. The lock around the token
    refresh only serialises callers, so each call is taken as atomic. */
module GraphApi {
  import opened Options
  import opened Decimal
  import opened RedisCache

  const TokenKey: string := "graph_api_token"
  const UserKeyPrefix: string := "user_id:"
  /** Token expiry used when the token reply carries no `expires_in`. */
  const DefaultTokenTtl: int := 3600
  /** User ids are cached for one day. */
  const UserIdTtl: int := 86400
  /** The inbox listing asks for the 25 newest messages (`$top=25`). */
  const InboxPageSize: nat := 25
  const BearerPrefix: string := "Bearer "
  const JsonContentType: string := "application/json"
  const ClientCredentialsGrant: string := "client_credentials"
  const MailSentMessage: string := "Email sent successfully"

  /** Cache key of the id of a user principal name. */
  function UserKey(upn: string): string {
    UserKeyPrefix + upn
  }

  /** The configuration section the client is built from. */
  datatype Settings = Settings(clientId: string, tenantId: string, clientSecret: string, scopes: string)

  datatype Headers = Headers(authorization: string, contentType: string)

  datatype Mail = Mail(subject: string, body: string, recipient: string)

  /** A remote call, by endpoint and the parameters the code puts in it. */
  datatype Request =
    | TokenRequest(tenantId: string, clientId: string, scope: string, clientSecret: string, grantType: string)
    | UserRequest(upn: string, headers: Headers)
    | InboxRequest(userId: string, top: nat, headers: Headers)
    | SendMailRequest(userId: string, headers: Headers, mail: Mail)

  /** A remote reply: status code, decoded JSON body and raw body text. */
  datatype Reply<B> = Reply(status: int, body: B, text: string)

  datatype TokenBody = TokenBody(accessToken: string, expiresIn: Option<int>)

  datatype UserBody = UserBody(id: string)

  /** A message as the inbox listing selects it: id, from, isRead,
      receivedDateTime, subject. `from` and `emailAddress` may be null. */
  datatype EmailAddress = EmailAddress(name: string, address: string)

  datatype Recipient = Recipient(emailAddress: Option<EmailAddress>)

  datatype Message = Message(id: string, subject: string, from: Option<Recipient>, isRead: bool, receivedDateTime: string)

  /** The JSON object of an inbox page; `value` is absent when the key is missing. */
  datatype InboxPage = InboxPage(value: Option<seq<Message>>)

  /** How each remote endpoint answers during one operation. */
  datatype Remote = Remote(token: Reply<TokenBody>, user: Reply<UserBody>, inbox: Reply<InboxPage>, send: Reply<()>)

  datatype Step = TokenStep | UserIdStep | InboxStep | SendStep

  /** The exception raised on an unexpected status code. */
  datatype Failure = Failure(step: Step, status: int, text: string)

  datatype Outcome<T> = Outcome(result: Result<T, Failure>, store: Store, calls: seq<Request>)

  function Last<T>(s: seq<T>): T
    requires |s| > 0
  {
    s[|s| - 1]
  }

  lemma UserKeyIsNotTokenKey(upn: string)
    ensures UserKey(upn) != TokenKey
  {
    TokenKeyIsNoUserKey();
    assert UserKeyPrefix <= UserKey(upn);
  }

  /** Distinct principal names get distinct cache keys. */
  lemma UserKeyInjective(a: string, b: string)
    ensures UserKey(a) == UserKey(b) ==> a == b
  {
    if UserKey(a) == UserKey(b) {
      assert a == UserKey(a)[|UserKeyPrefix|..];
      assert b == UserKey(b)[|UserKeyPrefix|..];
    }
  }

  // ---------------------------------------------------------------------
  // Error text

  function StepPrefix(step: Step): string {
    match step
    case TokenStep => "Failed to get token: "
    case UserIdStep => "Failed to get user ID: "
    case InboxStep => "Failed to get inbox: "
    case SendStep => "Failed to send email: "
  }

  /** The text of the raised exception: what failed, the status, the body text. */
  function Describe(f: Failure): (s: string)
    ensures StepPrefix(f.step) <= s
    ensures |s| >= |StepPrefix(f.step)| + |DecimalText(f.status)| + 3 + |f.text|
    ensures s[|s| - |f.text|..] == f.text
  {
    StepPrefix(f.step) + DecimalText(f.status) + " - " + f.text
  }

  /** Index of the first space in `s`, or `|s|` when there is none. */
  function SpaceIndex(s: string): (k: nat)
    ensures k <= |s|
    ensures forall i | 0 <= i < k :: s[i] != ' '
    ensures k < |s| ==> s[k] == ' '
  {
    if s == [] then 0 else if s[0] == ' ' then 0 else 1 + SpaceIndex(s[1..])
  }

  /** Reads "<status> - <text>" after a step's prefix. */
  function ParseStatusAndText(step: Step, rest: string): Option<Failure> {
    var k := SpaceIndex(rest);
    if k + 3 <= |rest| && rest[k..k + 3] == " - " then
      match ParseDecimal(rest[..k])
      case Some(n) => Some(Failure(step, n, rest[k + 3..]))
      case None => None
    else None
  }

  /** Recovers the failure from an exception text; inverse of Describe. */
  function ParseFailure(s: string): Option<Failure> {
    if StepPrefix(TokenStep) <= s then ParseStatusAndText(TokenStep, s[|StepPrefix(TokenStep)|..])
    else if StepPrefix(UserIdStep) <= s then ParseStatusAndText(UserIdStep, s[|StepPrefix(UserIdStep)|..])
    else if StepPrefix(InboxStep) <= s then ParseStatusAndText(InboxStep, s[|StepPrefix(InboxStep)|..])
    else if StepPrefix(SendStep) <= s then ParseStatusAndText(SendStep, s[|StepPrefix(SendStep)|..])
    else None
  }

  lemma ParseAfterPrefix(f: Failure)
    ensures ParseStatusAndText(f.step, DecimalText(f.status) + " - " + f.text) == Some(f)
  {
    var d := DecimalText(f.status);
    var rest := d + " - " + f.text;
    DecimalTextHasNoSpace(f.status);
    var k := SpaceIndex(rest);
    assert rest[|d|] == ' ';
    assert k == |d|;
    assert rest[k..k + 3] == " - ";
    assert rest[..k] == d;
    assert rest[k + 3..] == f.text;
    ParseDecimalText(f.status);
  }

  /** A text starting with one step's prefix starts with no earlier one. */
  lemma PrefixesExclusive(s: string, step: Step)
    requires StepPrefix(step) <= s
    ensures step != TokenStep ==> !(StepPrefix(TokenStep) <= s)
    ensures step == InboxStep || step == SendStep ==> !(StepPrefix(UserIdStep) <= s)
    ensures step == SendStep ==> !(StepPrefix(InboxStep) <= s)
  {
    // "Failed to get " is shared by the first three prefixes; the character
    // after it (index 14) is 't', 'u' or 'i'. "Failed to send" differs from
    // them already at index 10, 's' against 'g'.
    match step
    case TokenStep =>
    case UserIdStep =>
      assert s[14] == 'u';
    case InboxStep =>
      assert s[14] == 'i';
    case SendStep =>
      assert s[10] == 's';
  }

  /** The exception text names the failing step, the status and the body
      text, all recoverable from it. */
  lemma ParseDescribe(f: Failure)
    ensures ParseFailure(Describe(f)) == Some(f)
  {
    var s := Describe(f);
    var p := StepPrefix(f.step);
    assert s[..|p|] == p;
    assert s[|p|..] == DecimalText(f.status) + " - " + f.text;
    ParseAfterPrefix(f);
    PrefixesExclusive(s, f.step);
  }

  /** Distinct failures raise distinct texts. */
  lemma DescribeInjective(f: Failure, g: Failure)
    ensures Describe(f) == Describe(g) ==> f == g
  {
    ParseDescribe(f);
    ParseDescribe(g);
  }

  // ---------------------------------------------------------------------
  // Operations

  /** The client-credentials token request the settings produce. */
  function TokenRequestFor(settings: Settings): Request {
    TokenRequest(settings.tenantId, settings.clientId, settings.scopes, settings.clientSecret, ClientCredentialsGrant)
  }

  /** The headers every Graph call carries for a bearer token. */
  function BearerHeaders(token: string): Headers {
    Headers(BearerPrefix + token, JsonContentType)
  }

  /** `h` authorises with the token the store holds. */
  predicate Authorized(h: Headers, store: Store) {
    TokenKey in store && h == BearerHeaders(store[TokenKey].value)
  }

  /** The token in the cache, or a fresh one from the token endpoint, which is
      then cached for the expiry the endpoint names. */
  function GetUserToken(settings: Settings, store: Store, remote: Remote): (o: Outcome<string>)
    ensures Hit(Get(store, TokenKey)) ==> o == Outcome(Ok(store[TokenKey].value), store, [])
    ensures !Hit(Get(store, TokenKey)) ==> o.calls == [TokenRequestFor(settings)]
    ensures o.result.Ok? ==> Get(o.store, TokenKey) == Some(o.result.value)
    ensures WritesOnly(store, o.store, {TokenKey})
    ensures !Hit(Get(store, TokenKey)) && o.result.Ok? ==>
      && remote.token.status == 200
      && o.result.value == remote.token.body.accessToken
      && o.store[TokenKey].ttl == remote.token.body.expiresIn.GetOr(DefaultTokenTtl)
    ensures o.result.Err? <==> !Hit(Get(store, TokenKey)) && remote.token.status != 200
    ensures o.result.Err? ==>
      o.store == store && o.result.error == Failure(TokenStep, remote.token.status, remote.token.text)
  {
    var cached := Get(store, TokenKey);
    if Hit(cached) then
      Outcome(Ok(cached.value), store, [])
    else
      var request := TokenRequestFor(settings);
      var reply := remote.token;
      if reply.status == 200 then
        var token := reply.body.accessToken;
        var ttl := reply.body.expiresIn.GetOr(DefaultTokenTtl);
        Outcome(Ok(token), SetEx(store, TokenKey, ttl, token), [request])
      else
        Outcome(Err(Failure(TokenStep, reply.status, reply.text)), store, [request])
  }

  /** Headers for a Graph call: the bearer token and a JSON content type. */
  function GetHeaders(settings: Settings, store: Store, remote: Remote): (o: Outcome<Headers>)
    ensures var t := GetUserToken(settings, store, remote);
      && o.store == t.store && o.calls == t.calls
      && (o.result.Ok? <==> t.result.Ok?)
      && (o.result.Ok? ==> o.result.value.authorization == BearerPrefix + t.result.value)
      && (o.result.Err? ==> o.result.error == t.result.error)
    ensures o.result.Ok? ==> Authorized(o.result.value, o.store)
  {
    var t := GetUserToken(settings, store, remote);
    match t.result
    case Ok(token) => Outcome(Ok(BearerHeaders(token)), t.store, t.calls)
    case Err(e) => Outcome(Err(e), t.store, t.calls)
  }

  /** The id of a user principal name: cached, or looked up in the directory
      and cached for a day. */
  function GetUserId(settings: Settings, store: Store, remote: Remote, upn: string): (o: Outcome<string>)
    ensures Hit(Get(store, UserKey(upn))) ==> o == Outcome(Ok(store[UserKey(upn)].value), store, [])
    ensures o.result.Ok? ==> Get(o.store, UserKey(upn)) == Some(o.result.value)
    ensures o.result.Err? ==> Get(o.store, UserKey(upn)) == Get(store, UserKey(upn))
    ensures WritesOnly(store, o.store, {TokenKey, UserKey(upn)})
    ensures UserIdsKeptADay(store) ==> UserIdsKeptADay(o.store)
    ensures !Hit(Get(store, UserKey(upn))) ==>
      var h := GetHeaders(settings, store, remote);
      && (o.result.Ok? <==> h.result.Ok? && remote.user.status == 200)
      && (h.result.Ok? ==> o.calls == h.calls + [UserRequest(upn, h.result.value)])
      && (h.result.Err? ==> o.calls == h.calls && o.result == Err(h.result.error))
      && (h.result.Ok? && remote.user.status != 200 ==>
            o.result == Err(Failure(UserIdStep, remote.user.status, remote.user.text)))
      && o.store == (if o.result.Ok? then SetEx(h.store, UserKey(upn), UserIdTtl, o.result.value) else h.store)
    ensures !Hit(Get(store, UserKey(upn))) && o.result.Ok? ==>
      && o.result.value == remote.user.body.id
      && o.store[UserKey(upn)].ttl == UserIdTtl
      && Authorized(Last(o.calls).headers, o.store)
    ensures o.result.Err? && o.result.error.step != TokenStep ==>
      o.result.error == Failure(UserIdStep, remote.user.status, remote.user.text)
  {
    var key := UserKey(upn);
    var cached := Get(store, key);
    if Hit(cached) then
      Outcome(Ok(cached.value), store, [])
    else
      UserKeyIsNotTokenKey(upn);
      var h := GetHeaders(settings, store, remote);
      match h.result
      case Err(e) => Outcome(Err(e), h.store, h.calls)
      case Ok(headers) =>
        TokenKeyIsNoUserKey();
        KeptADayAfterWrites(store, h.store, {TokenKey});
        var calls := h.calls + [UserRequest(upn, headers)];
        var reply := remote.user;
        if reply.status == 200 then
          var id := reply.body.id;
          var written := SetEx(h.store, key, UserIdTtl, id);
          WritesOnlyTransitive(store, h.store, written, {TokenKey}, {key});
          KeptADayAfterWrites(h.store, written, {key});
          Outcome(Ok(id), written, calls)
        else
          Outcome(Err(Failure(UserIdStep, reply.status, reply.text)), h.store, calls)
  }

  /** The user id and the headers, fetched in that order by both mailbox calls. */
  datatype Credentials = Credentials(userId: string, headers: Headers)

  /** The status code an endpoint answers with on success. */
  function SuccessStatus(step: Step): int {
    if step == SendStep then 202 else 200
  }

  /** The status and body text of the reply from the endpoint of `step`. */
  function ReplyOf(remote: Remote, step: Step): (int, string) {
    match step
    case TokenStep => (remote.token.status, remote.token.text)
    case UserIdStep => (remote.user.status, remote.user.text)
    case InboxStep => (remote.inbox.status, remote.inbox.text)
    case SendStep => (remote.send.status, remote.send.text)
  }

  /** `f` reports an unexpected reply: the endpoint it names answered with a
      status other than its success status, and `f` carries that status and
      body text. */
  predicate RaisedBy(f: Failure, remote: Remote) {
    && (f.status, f.text) == ReplyOf(remote, f.step)
    && f.status != SuccessStatus(f.step)
  }

  /** Every cached user id was written with the one-day expiry. */
  predicate UserIdsKeptADay(store: Store) {
    forall k | k in store && UserKeyPrefix <= k :: store[k].ttl == UserIdTtl
  }

  lemma TokenKeyIsNoUserKey()
    ensures !(UserKeyPrefix <= TokenKey)
  {
    assert UserKeyPrefix[0] != TokenKey[0];
  }

  /** Writes that give every user-id key they touch the one-day expiry keep
      every cached user id at that expiry. */
  lemma KeptADayAfterWrites(before: Store, after: Store, keys: set<string>)
    requires WritesOnly(before, after, keys)
    requires forall k | k in keys && k in after && UserKeyPrefix <= k :: after[k].ttl == UserIdTtl
    ensures UserIdsKeptADay(before) ==> UserIdsKeptADay(after)
  {
  }

  /** get_user_id followed by get_headers, as get_inbox and send_mail do. */
  function GetCredentials(settings: Settings, store: Store, remote: Remote, upn: string): (o: Outcome<Credentials>)
    ensures WritesOnly(store, o.store, {TokenKey, UserKey(upn)})
    ensures UserIdsKeptADay(store) ==> UserIdsKeptADay(o.store)
    ensures o.result.Ok? ==>
      && Get(o.store, UserKey(upn)) == Some(o.result.value.userId)
      && Authorized(o.result.value.headers, o.store)
    ensures o.result.Err? ==> RaisedBy(o.result.error, remote) && o.result.error.step in {TokenStep, UserIdStep}
    ensures Hit(Get(store, TokenKey)) && Hit(Get(store, UserKey(upn))) ==>
      o == Outcome(Ok(Credentials(store[UserKey(upn)].value, BearerHeaders(store[TokenKey].value))), store, [])
    ensures var u := GetUserId(settings, store, remote, upn);
      && u.calls <= o.calls
      && (u.result.Err? ==> o == Outcome(Err(u.result.error), u.store, u.calls))
      && (u.result.Ok? ==>
            var h := GetHeaders(settings, u.store, remote);
            && o.calls == u.calls + h.calls && o.store == h.store
            && (o.result.Ok? <==> h.result.Ok?)
            && (o.result.Ok? ==> o.result.value == Credentials(u.result.value, h.result.value))
            && (o.result.Err? ==> o.result.error == h.result.error))
  {
    UserKeyIsNotTokenKey(upn);
    TokenKeyIsNoUserKey();
    var u := GetUserId(settings, store, remote, upn);
    if u.result.Err? then
      Outcome(Err(u.result.error), u.store, u.calls)
    else
      var h := GetHeaders(settings, u.store, remote);
      WritesOnlyTransitive(store, u.store, h.store, {TokenKey, UserKey(upn)}, {TokenKey});
      assert {TokenKey, UserKey(upn)} + {TokenKey} == {TokenKey, UserKey(upn)};
      KeptADayAfterWrites(u.store, h.store, {TokenKey});
      var result := if h.result.Ok? then Ok(Credentials(u.result.value, h.result.value)) else Err(h.result.error);
      Outcome(result, h.store, u.calls + h.calls)
  }

  /** The first page of the user's inbox, returned only on status 200. */
  function GetInbox(settings: Settings, store: Store, remote: Remote, upn: string): (o: Outcome<InboxPage>)
    ensures WritesOnly(store, o.store, {TokenKey, UserKey(upn)})
    ensures UserIdsKeptADay(store) ==> UserIdsKeptADay(o.store)
    ensures o.result.Ok? ==> remote.inbox.status == 200 && o.result.value == remote.inbox.body
    ensures o.result.Err? ==> RaisedBy(o.result.error, remote) && o.result.error.step != SendStep
    ensures var c := GetCredentials(settings, store, remote, upn);
      && (c.result.Err? ==> o.calls == c.calls && o.result == Err(c.result.error))
      && (c.result.Ok? ==>
            && o.calls == c.calls + [InboxRequest(c.result.value.userId, InboxPageSize, c.result.value.headers)]
            && (o.result.Ok? <==> remote.inbox.status == 200)
            && (o.result.Err? ==> o.result.error == Failure(InboxStep, remote.inbox.status, remote.inbox.text)))
    ensures o.store == GetCredentials(settings, store, remote, upn).store
    ensures o.result.Ok? ==>
      && |o.calls| > 0 && Last(o.calls).InboxRequest?
      && Get(o.store, UserKey(upn)) == Some(Last(o.calls).userId)
      && Authorized(Last(o.calls).headers, o.store)
  {
    var c := GetCredentials(settings, store, remote, upn);
    match c.result
    case Err(e) => Outcome(Err(e), c.store, c.calls)
    case Ok(cred) =>
      var calls := c.calls + [InboxRequest(cred.userId, InboxPageSize, cred.headers)];
      var reply := remote.inbox;
      if reply.status == 200 then
        Outcome(Ok(reply.body), c.store, calls)
      else
        Outcome(Err(Failure(InboxStep, reply.status, reply.text)), c.store, calls)
  }

  /** Sends a text mail from the user's mailbox; acknowledged only on status 202. */
  function SendMail(settings: Settings, store: Store, remote: Remote, upn: string, subject: string, body: string, recipient: string): (o: Outcome<string>)
    ensures WritesOnly(store, o.store, {TokenKey, UserKey(upn)})
    ensures UserIdsKeptADay(store) ==> UserIdsKeptADay(o.store)
    ensures o.result.Ok? ==> remote.send.status == 202 && o.result.value == MailSentMessage
    ensures o.result.Err? ==> RaisedBy(o.result.error, remote) && o.result.error.step != InboxStep
    ensures var c := GetCredentials(settings, store, remote, upn);
      && (c.result.Err? ==> o.calls == c.calls && o.result == Err(c.result.error))
      && (c.result.Ok? ==>
            && o.calls == c.calls + [SendMailRequest(c.result.value.userId, c.result.value.headers, Mail(subject, body, recipient))]
            && (o.result.Ok? <==> remote.send.status == 202)
            && (o.result.Err? ==> o.result.error == Failure(SendStep, remote.send.status, remote.send.text)))
    ensures o.store == GetCredentials(settings, store, remote, upn).store
    ensures o.result.Ok? ==>
      && |o.calls| > 0 && Last(o.calls).SendMailRequest?
      && Get(o.store, UserKey(upn)) == Some(Last(o.calls).userId)
      && Authorized(Last(o.calls).headers, o.store)
  {
    var c := GetCredentials(settings, store, remote, upn);
    match c.result
    case Err(e) => Outcome(Err(e), c.store, c.calls)
    case Ok(cred) =>
      var calls := c.calls + [SendMailRequest(cred.userId, cred.headers, Mail(subject, body, recipient))];
      var reply := remote.send;
      if reply.status == 202 then
        Outcome(Ok(MailSentMessage), c.store, calls)
      else
        Outcome(Err(Failure(SendStep, reply.status, reply.text)), c.store, calls)
  }

  // ---------------------------------------------------------------------
  // Cache reuse across calls

  /** An empty cached string is falsy, so both lookups treat it as a miss and
      go to the remote endpoint. */
  lemma EmptyCachedValueIsMiss(settings: Settings, store: Store, remote: Remote, upn: string)
    ensures Get(store, TokenKey) == Some("") ==> GetUserToken(settings, store, remote).calls == [TokenRequestFor(settings)]
    ensures Get(store, UserKey(upn)) == Some("") ==> GetUserId(settings, store, remote, upn).calls != []
  {
  }

  /** Once a non-empty token is returned, the next call returns it again
      without a request, whatever the token endpoint would answer. */
  lemma TokenReused(settings: Settings, store: Store, first: Remote, later: Remote)
    requires GetUserToken(settings, store, first).result.Ok?
    requires GetUserToken(settings, store, first).result.value != ""
    ensures var o := GetUserToken(settings, store, first);
      GetUserToken(settings, o.store, later) == Outcome(o.result, o.store, [])
  {
  }

  /** Once a non-empty user id is returned, the next lookup of the same name
      returns it again without a request. */
  lemma UserIdReused(settings: Settings, store: Store, first: Remote, later: Remote, upn: string)
    requires GetUserId(settings, store, first, upn).result.Ok?
    requires GetUserId(settings, store, first, upn).result.value != ""
    ensures var o := GetUserId(settings, store, first, upn);
      GetUserId(settings, o.store, later, upn) == Outcome(o.result, o.store, [])
  {
  }

  /** With the token and the user id both cached, listing the inbox issues
      exactly one request, the inbox listing, with the cached id and token,
      and leaves the store as it was. */
  lemma WarmInbox(settings: Settings, store: Store, remote: Remote, upn: string)
    requires Hit(Get(store, TokenKey)) && Hit(Get(store, UserKey(upn)))
    ensures var o := GetInbox(settings, store, remote, upn);
      && o.calls == [InboxRequest(store[UserKey(upn)].value, InboxPageSize, BearerHeaders(store[TokenKey].value))]
      && o.store == store
      && (o.result.Ok? <==> remote.inbox.status == 200)
  {
  }

  /** After an inbox listing that left a non-empty token and user id cached,
      whether or not the listing itself succeeded, the next listing for the
      same name makes no token or directory request. */
  lemma InboxAfterInbox(settings: Settings, store: Store, first: Remote, later: Remote, upn: string)
    requires var o := GetInbox(settings, store, first, upn);
      Hit(Get(o.store, TokenKey)) && Hit(Get(o.store, UserKey(upn)))
    ensures var o := GetInbox(settings, store, first, upn);
      |GetInbox(settings, o.store, later, upn).calls| == 1
  {
    var o := GetInbox(settings, store, first, upn);
    WarmInbox(settings, o.store, later, upn);
  }
}

=== FILE: messages_endpoint.dfy ===
/** The `/messages` handler: fetch the inbox page, keep the messages whose
    subject contains the load number, and reply with a summary of each. */
module MessagesEndpoint {
  import opened Options
  import opened Decimal
  import opened Substring
  import opened RedisCache
  import opened GraphApi
  import opened Filtering

  const NoMessagesNotice: string := "No messages found with the specified load number."
  const UnknownSender: string := "NONE"
  const ReadStatus: string := "Read"
  const UnreadStatus: string := "Unread"
  const ServerErrorStatus: int := 500

  /** The fixed-shape record the handler returns per kept message. */
  datatype Summary = Summary(messageId: string, subject: string, from: string, status: string, received: string)

  /** What the handler answers: the list, the fixed notice, or an HTTP error. */
  datatype Response =
    | MessageList(messages: seq<Summary>)
    | Notice(message: string)
    | HttpError(status: int, detail: string)

  /** The message is kept: a load number was given and its decimal text occurs
      in the subject. */
  predicate Matches(m: Message, load: Option<int>)
    ensures Matches(m, load) ==> load.Some? && |DecimalText(load.value)| <= |m.subject|
    ensures load.Some? && m.subject == DecimalText(load.value) ==> Matches(m, load)
  {
    assert load.Some? && m.subject == DecimalText(load.value) ==> OccursAt(m.subject, m.subject, 0);
    load.Some? && Contains(m.subject, DecimalText(load.value))
  }

  /** `from.emailAddress.name` when both levels are present, otherwise "NONE". */
  function SenderName(m: Message): (name: string)
    ensures m.from.Some? && m.from.value.emailAddress.Some? ==> name == m.from.value.emailAddress.value.name
    ensures m.from.None? || m.from.value.emailAddress.None? ==> name == UnknownSender
  {
    match m.from
    case Some(Recipient(Some(address))) => address.name
    case _ => UnknownSender
  }

  function Summarize(m: Message): (s: Summary)
    ensures s.messageId == m.id && s.subject == m.subject && s.received == m.receivedDateTime
    ensures s.from == SenderName(m)
    ensures s.status == ReadStatus <==> m.isRead
    ensures s.status == UnreadStatus <==> !m.isRead
  {
    Summary(m.id, m.subject, SenderName(m), if m.isRead then ReadStatus else UnreadStatus, m.receivedDateTime)
  }

  /** The summaries of the kept messages of `page`, in page order. */
  function Selected(page: seq<Message>, load: Option<int>): seq<Summary> {
    FilterMap(page, m => Matches(m, load), Summarize)
  }

  /** The summaries are those of an in-order subsequence of the page, whose
      positions are exactly the positions of the matching messages: each
      matching message yields one summary and no other message yields any. */
  lemma SelectedPositions(page: seq<Message>, load: Option<int>) returns (idx: seq<int>)
    ensures |idx| == |Selected(page, load)|
    ensures forall j | 0 <= j < |idx| :: 0 <= idx[j] < |page| && Selected(page, load)[j] == Summarize(page[idx[j]])
    ensures forall j, k | 0 <= j < k < |idx| :: idx[j] < idx[k]
    ensures forall i | 0 <= i < |page| :: Matches(page[i], load) <==> i in idx
  {
    idx := FilterMapPositions(page, m => Matches(m, load), Summarize);
  }

  /** Every returned summary's subject contains the load number's text. */
  lemma SelectedSound(page: seq<Message>, load: Option<int>)
    ensures forall s | s in Selected(page, load) :: load.Some? && Contains(s.subject, DecimalText(load.value))
  {
    var idx := SelectedPositions(page, load);
    forall s | s in Selected(page, load)
      ensures load.Some? && Contains(s.subject, DecimalText(load.value))
    {
      var j :| 0 <= j < |Selected(page, load)| && Selected(page, load)[j] == s;
      assert idx[j] in idx;
    }
  }

  /** Without a load number nothing is kept. */
  lemma {:induction false} SelectedWithoutLoad(page: seq<Message>)
    ensures Selected(page, None) == []
  {
    if page != [] {
      SelectedWithoutLoad(page[..|page| - 1]);
    }
  }

  /** The reply for an inbox page: the summaries, or the notice when none. */
  function PageResponse(page: InboxPage, load: Option<int>): (r: Response)
    ensures r.MessageList? || r == Notice(NoMessagesNotice)
    ensures r.MessageList? ==>
      && page.value.Some? && load.Some? && r.messages == Selected(page.value.value, load) && |r.messages| > 0
      && forall j | 0 <= j < |r.messages| :: Contains(r.messages[j].subject, DecimalText(load.value))
  {
    var kept := if page.value.Some? then Selected(page.value.value, load) else [];
    if kept == [] then Notice(NoMessagesNotice)
    else
      SelectedSound(page.value.value, load);
      SelectedWithoutLoad(page.value.value);
      MessageList(kept)
  }

  /** The notice is the reply exactly when no message of the page matches:
      in particular without a load number, without a `value` list, or with an
      empty one. */
  lemma PageResponseCases(page: InboxPage, load: Option<int>)
    ensures PageResponse(page, load).MessageList? || PageResponse(page, load) == Notice(NoMessagesNotice)
    ensures PageResponse(page, load).MessageList? <==>
      page.value.Some? && exists i | 0 <= i < |page.value.value| :: Matches(page.value.value[i], load)
    ensures load.None? || page.value.None? || page.value.value == [] ==>
      PageResponse(page, load) == Notice(NoMessagesNotice)
  {
    if page.value.Some? {
      var items := page.value.value;
      var idx := SelectedPositions(items, load);
      if exists i | 0 <= i < |items| :: Matches(items[i], load) {
        var i :| 0 <= i < |items| && Matches(items[i], load);
        assert i in idx;
      }
      if |Selected(items, load)| > 0 {
        assert Matches(items[idx[0]], load);
      }
    }
  }

  /** The handler's loop: scan the page in order and append the summary of
      each message whose subject contains the load number's text. */
  method CollectSummaries(items: seq<Message>, load: Option<int>) returns (messages: seq<Summary>)
    ensures messages == Selected(items, load)
  {
    messages := [];
    var needle := if load.Some? then DecimalText(load.value) else "";
    var i := 0;
    while i < |items|
      invariant 0 <= i <= |items|
      invariant messages == Selected(items[..i], load)
    {
      var message := items[i];
      var kept := false;
      if load.Some? {
        kept := Find(needle, message.subject);
      }
      if kept {
        messages := messages + [Summarize(message)];
      }
      assert items[..i + 1][..i] == items[..i];
      i := i + 1;
    }
    assert items[..i] == items;
  }

  /** Lists the inbox and filters it by load number; a failure of the inbox
      call becomes an HTTP 500 whose detail is the exception text. */
  method ListOutlookMessages(settings: Settings, store: Store, remote: Remote, upn: string, load: Option<int>)
    returns (response: Response, store': Store, calls: seq<Request>)
    ensures var o := GetInbox(settings, store, remote, upn);
      && store' == o.store && calls == o.calls
      && (o.result.Err? ==> response == HttpError(ServerErrorStatus, Describe(o.result.error)))
      && (o.result.Ok? ==> response == PageResponse(o.result.value, load))
    ensures response.HttpError? ==> response.status == ServerErrorStatus
    ensures response.MessageList? ==>
      && |response.messages| > 0 && load.Some?
      && forall j | 0 <= j < |response.messages| :: Contains(response.messages[j].subject, DecimalText(load.value))
    ensures response.Notice? ==> response.message == NoMessagesNotice
    ensures load.None? ==> !response.MessageList?
  {
    var o := GetInbox(settings, store, remote, upn);
    store' := o.store;
    calls := o.calls;
    if o.result.Err? {
      response := HttpError(ServerErrorStatus, Describe(o.result.error));
      return;
    }
    var messages: seq<Summary> := [];
    var page := o.result.value;
    if page.value.Some? {
      messages := CollectSummaries(page.value.value, load);
    }
    if messages == [] {
      response := Notice(NoMessagesNotice);
    } else {
      response := MessageList(messages);
    }
    assert response == PageResponse(page, load);
  }
}

=== FILE: options.dfy ===
/** Optional values and results with an error, the two shapes the model uses
    for Python's `None` and for a raised exception. */
module Options {

  /** A value that may be absent (Python `None`, Redis nil). */
  datatype Option<+T> = None | Some(value: T) {

    /** The value, or `default` when absent (Python `dict.get(key, default)`). */
    function GetOr(default: T): T {
      match this
      case Some(v) => v
      case None => default
    }
  }

  /** The value an operation returns, or the error it raises. */
  datatype Result<+T, +E> = Ok(value: T) | Err(error: E)
}

=== FILE: redis_cache.dfy ===
/** The key-value store the Graph client caches into, as a map from key to
    the stored text and the expiry (seconds) it was written with. Expiry over
    time is not modelled: an entry is present or absent. */
module RedisCache {
  import opened Options

  datatype Entry = Entry(value: string, ttl: int)

  type Store = map<string, Entry>

  /** GET: the stored text, or nil. */
  function Get(store: Store, key: string): (r: Option<string>)
    ensures r.Some? <==> key in store
    ensures r.Some? ==> r.value == store[key].value
  {
    if key in store then Some(store[key].value) else None
  }

  /** Python truthiness of a GET reply: nil and the empty string are misses. */
  predicate Hit(reply: Option<string>) {
    reply.Some? && reply.value != ""
  }

  /** SETEX key ttl value (and SET key value EX ttl, which writes the same). */
  function SetEx(store: Store, key: string, ttl: int, value: string): (r: Store)
    ensures Get(r, key) == Some(value) && r[key].ttl == ttl
    ensures r.Keys == store.Keys + {key}
    ensures forall k | k in store && k != key :: r[k] == store[k]
  {
    store[key := Entry(value, ttl)]
  }

  /** `after` differs from `before` only by writes to `keys`: nothing is
      removed and every other entry is kept as it was. */
  predicate WritesOnly(before: Store, after: Store, keys: set<string>) {
    && before.Keys <= after.Keys <= before.Keys + keys
    && forall k | k in before && k !in keys :: after[k] == before[k]
  }

  /** Writes to `k1` followed by writes to `k2` are writes to both. */
  lemma WritesOnlyTransitive(s0: Store, s1: Store, s2: Store, k1: set<string>, k2: set<string>)
    requires WritesOnly(s0, s1, k1) && WritesOnly(s1, s2, k2)
    ensures WritesOnly(s0, s2, k1 + k2)
  {
  }
}

=== FILE: substring.dfy ===
/** Python's `needle in hay` for two `str` values: a contiguous occurrence. */
module Substring {

  /** `needle` occurs in `hay` starting at index `i`. */
  predicate OccursAt(needle: string, hay: string, i: int) {
    0 <= i && i + |needle| <= |hay| && hay[i..i + |needle|] == needle
  }

  /** `needle in hay`: some index of `hay` starts an occurrence of `needle`. */
  predicate Contains(hay: string, needle: string) {
    exists i | 0 <= i <= |hay| - |needle| :: OccursAt(needle, hay, i)
  }

  /** Scans `hay` left to right for the first occurrence of `needle`. */
  method Find(needle: string, hay: string) returns (found: bool)
    ensures found <==> Contains(hay, needle)
  {
    var i := 0;
    while i + |needle| <= |hay|
      invariant 0 <= i
      invariant forall j | 0 <= j < i :: !OccursAt(needle, hay, j)
      decreases |hay| - i
    {
      if hay[i..i + |needle|] == needle {
        assert OccursAt(needle, hay, i);
        return true;
      }
      i := i + 1;
    }
    return false;
  }

  /** A text contains whatever is spliced into it. */
  lemma ContainsSpliced(before: string, needle: string, after: string)
    ensures Contains(before + needle + after, needle)
  {
    var hay := before + needle + after;
    assert hay[|before|..|before| + |needle|] == needle;
    assert OccursAt(needle, hay, |before|);
  }
}
